=== FILE: README.md ===
# Teacher Toolkit real-time session state, in Dafny

This project models the in-memory, per-session state that the Teacher
Toolkit back end keeps behind its Socket.IO handlers, and proves properties
of it:

- the countdown registry of `utils/timer.js` (`sessionTimers`,
  `startCountdown`, `stopCountdown`, and the one-second interval body as an
  explicit `Tick` step) — module `Timer`;
- the objective board of `utils/objective.js` (`activeObjectives`, the
  join-time resync and the `setObjective` handler) — module `Objective`;
- the caption pipeline of `utils/subtitles.js` (`activeSubtitles`,
  `recognitionStreams`, the shared recognition `request`, the start / audio
  / stop / translation handlers, the recognizer's `data` and `error`
  callbacks and the join-time resync) — module `Subtitles`;
- the `joinSession` handler of `server.js` and Socket.IO room semantics —
  modules `Rooms` and `Server`.

Every handler is a pure transition from a state to a new state plus the
ordered list of emissions it performs: `Unicast(socket, event)` for
`socket.emit` and `Broadcast(room, event)` for `io.to(room).emit`. A
broadcast reaches every socket whose rooms contain the code
(`Rooms.Receivers`). The server is single-threaded, so each socket event,
interval firing or recognizer callback is one atomic step
(`Server.Next`).

Behaviour of the program worth knowing when reading the model:

- `server.js:94` calls `require('./utils/timer')(io)` and takes
  `handleTimerEvents` from the result. But `utils/timer.js:54` exports the
  plain object `{ startCountdown, stopCountdown }`. As written, that call
  throws a `TypeError` at start-up, and no connection is ever handled.
- If that call returned the object, `handleTimerEvents` would be
  `undefined`. `server.js:115` would then throw on every successful join,
  right after `socket.join`. No subtitle or objective handler would be
  registered and no resync sent. Nothing catches that `TypeError`, so Node
  would end the server process, losing every in-memory map.
  `Server.JoinSessionAsWritten` models this join up to the throw; `Server.JoinSessionAsWritten` and `Server.JoinSession` are compared
  under "## Findings".
- The rest of the model uses the intended join, `Server.JoinSession`. It
  is `joinSession` with the line-115 call removed: it sends no timer resync
  and registers no timer handler. The two timer functions are operations
  that some caller may invoke (the `StartCountdown` and `StopCountdown`
  actions of `Server.Next`).
- Each successful `joinSession` registers a fresh set of handlers for its
  code, and `socket.join` never leaves earlier rooms. The model keeps, per
  socket, the sequence of joined codes (the `listeners` field of `Server.Server`). Every
  later event from that socket runs once per registration, so a socket
  that joined the same code twice broadcasts an objective twice and writes
  each audio chunk twice (`Server.SetObjectiveAll`, `Server.AudioAll`).
- Interval handles are explicit (`Timer.Registry.live`). The interval
  callback reads `sessionTimers[sessionCode]` afresh at every firing, so
  the model proves that at most one uncleared interval exists per session
  (`Timer.AtMostOneInterval`, kept by `Timer.Valid`).
- A stop that follows a self-finished countdown still returns true. The
  cleared interval's handle is still set, so the entry stays until then.
- `startSpeechRecognition` copies the request with `{ ...request }`, which
  is a shallow copy. Every stream's request shares the one module-level
  `config`, so the model gives streams no config of their own. A start
  rewrites the language that every open stream's config holds
  (`Subtitles.StartRewritesOpenStreams`). Every later translation request,
  from any session, uses the latest start's language as its source
  language (`Subtitles.StartLanguageLeaks`).
- The recognizer's `data` and `error` callbacks capture only the session
  code. They act on the session whatever stream is registered now, so they
  are modelled as inputs addressed to a code.
- `utils/timer.js` has no reset operation, and `stopCountdown` does not
  recompute the remaining time; it only deletes the entry.

## Model

| member | source | states |
|---|---|---|
| Timer.Start | utils/timer.js:11-38 | returns the duration; the session's entry holds it and ticks; the old interval is cleared; only the new interval is live for the session; other sessions keep their entries and ticking state |
| Timer.AtMostOneInterval | utils/timer.js:13-20 | in a consistent registry two uncleared intervals for one session are the same interval |
| Timer.Tick | utils/timer.js:20-34 | a cleared interval does nothing; a live one lowers its session's timeLeft by exactly one and broadcasts one countdownUpdate to that room only; the status is finished iff the new value is <= 0; the interval stays live iff the value is still positive; other sessions are unchanged |
| Timer.Stop | utils/timer.js:45-52 | returns true iff the session had an entry; the entry is gone and no interval of the session is live afterwards; on false nothing changes; other sessions are unchanged |
| Timer.RunFrom | utils/timer.js:19-34 | a live entry with k seconds left emits exactly the expected update sequence over any number of firings at least Firings(k), then stops ticking at 0 (or k-1 when k <= 0) |
| Timer.Countdown | utils/timer.js:11-38 | started at d > 0 it emits d updates d-1 … 0, all running but the last, which is finished; started at d <= 0 it emits one finished update d-1; no firing after that emits anything |
| Timer.RunIdle | utils/timer.js:31-33 | once the interval is cleared, further firings change nothing and emit nothing |
| Timer.StopAfterFinish | utils/timer.js:45-52 | after a countdown has finished by itself, stop still finds the entry, returns true and removes it |
| Timer.RestartSingleInterval | utils/timer.js:13-15 | starting twice leaves one live interval counting from the second duration; the first interval is cleared |
| Objective.JoinResync | utils/objective.js:17-23 | a join sends exactly one objectiveUpdate to the joiner alone: the stored text when truthy, the empty string otherwise |
| Objective.Set | utils/objective.js:26-39 | a matching code stores the text verbatim and broadcasts it once to that room; a mismatching code changes nothing and emits nothing; other sessions keep their objectives |
| Objective.SetThenJoin | utils/objective.js:17-18 | after a matching set, the next joiner's resync carries the new text (or "" if it is falsy) |
| Objective.SetIdempotent | utils/objective.js:32 | setting the same text twice stores the same board as setting it once |
| Subtitles.JoinResync | utils/subtitles.js:38-41 | a join gets a subtitleUpdate, to the joiner alone, iff a non-empty final transcript is stored for the session |
| Subtitles.InitValid | utils/subtitles.js:26-27 | the empty caption state has no streams and an empty ended log, so the stream-id invariant holds |
| Subtitles.RegisteredNeverEnded | utils/subtitles.js:47-50 | under the invariant, the stream registered for a code is never one whose `end()` was already called |
| Subtitles.Start | utils/subtitles.js:44-84 | ends and logs the session's previous stream if any; registers a new empty stream opened by this socket under a fresh id, one past every id handed out before, so under `Subtitles.Valid` it is never one of the ended streams; the start language (default en-US) is written into the one config all streams share, keeping its encoding and sample rate; other sessions' stream registrations and all transcripts are unchanged |
| Subtitles.StartRewritesOpenStreams | utils/subtitles.js:53-57 | a start in session B rewrites the shared config language while session A's earlier stream stays open and registered, so A's stream now holds B's language |
| Subtitles.RestartEndsPrevious | utils/subtitles.js:47-54 | a second start ends the stream the first one opened, a stream stays registered, and the shared config holds the second language |
| Subtitles.StartLanguageLeaks | utils/subtitles.js:53-54 | after a start in any session, a valid translation request uses that start's language as its source |
| Subtitles.AudioChunk | utils/subtitles.js:87-91 | with a stream, the chunk is appended to its audio log and nothing else changes; without one, the state is unchanged; nothing is emitted |
| Subtitles.Stop | utils/subtitles.js:94-100 | no stream remains for the session; an existing one is ended and logged; without one, the state is unchanged |
| Subtitles.StopThenAudioDropped | utils/subtitles.js:87-100 | once the session's stream is stopped, an audio chunk for it changes nothing |
| Subtitles.StopIdempotent | utils/subtitles.js:94-100 | stopping twice equals stopping once |
| Subtitles.Recognized | utils/subtitles.js:63-80 | with a first alternative, broadcasts {text, isFinal} to the room; only a final result replaces the stored transcript; without one, nothing happens |
| Subtitles.ResultThenJoin | utils/subtitles.js:73-74 | a final non-empty result is what the next joiner is resynced with; a final empty one gives no resync; an interim result leaves the resync as it was |
| Subtitles.RecognitionFailed | utils/subtitles.js:58-61 | a stream error broadcasts subtitleError to the whole room and changes no state |
| Subtitles.TranslationQuery | utils/subtitles.js:104-111 | a query is made iff text and target are both truthy; its source language is the shared config's |
| Subtitles.RequestTranslation | utils/subtitles.js:103-128 | an invalid request emits nothing; a valid one emits exactly one unicast to the requester, translatedSubtitle on success and subtitleError on failure |
| Subtitles.DisconnectAsWritten | utils/subtitles.js:131-141 | as written, the disconnect handler never changes the caption state |
| Subtitles.PresenterStreamOutlivesDisconnect | utils/subtitles.js:134 | the socket that opened a stream disconnects, the guard is false, and the stream stays open and registered |
| Subtitles.Disconnect | utils/subtitles.js:131-141 | intended handler: the stream is ended and removed iff the disconnecting socket opened it; otherwise nothing changes |
| Subtitles.PresenterStreamEndsOnDisconnect | utils/subtitles.js:131-141 | with the intended handler, socket "p" starts recognition in "ABC123" and disconnects, and no stream stays registered for "ABC123" |
| Rooms.Join | server.js:110 | the socket's rooms grow by exactly the code; earlier rooms are kept; other sockets are unaffected |
| Rooms.Receivers | server.js:110 | a unicast reaches its addressee only; a broadcast reaches exactly the sockets whose rooms contain the code |
| Rooms.JoinIdempotent | server.js:110 | joining the same room again leaves membership unchanged |
| Rooms.BroadcastStaysInRoom | server.js:110 | a socket not in room A never receives a broadcast to A |
| Rooms.JoinedSocketReceives | server.js:110 | after `socket.join`, the socket receives broadcasts to the new room and still to every room it was in before |
| Server.JoinSession | server.js:103-118 | intended join, with the line-115 call removed: a falsy code gets one sessionError unicast and changes nothing; otherwise the socket joins the room, registers once more, and receives the subtitle resync then the objective resync, all unicast to it; other sockets and all session state are unchanged |
| Server.JoinSessionAsWritten | server.js:103-118 | as written: a falsy code behaves as in the intended join; otherwise the socket joins the room, but line 115 throws, so nothing is registered and nothing is emitted; other sockets' rooms and registrations are kept |
| Server.JoinAsWrittenSkipsResync | server.js:115-117 | with an objective set, the as-written join sends the joiner nothing, while the intended join ends with its objectiveUpdate |
| Server.JoinAsWrittenFromInit | server.js:103-118 | on a fresh server the first join to a code sends the joiner nothing as written, while the intended join sends it the empty objective |
| Server.JoinReachesOnlyJoiner | server.js:115-117 | every emission of a join reaches the joining socket and no other |
| Server.RejoinDoublesHandlers | server.js:110-117 | with the intended join, rejoining a code leaves membership unchanged but registers the handlers a second time |
| Server.SetObjectiveAll | utils/objective.js:26-39 | across a socket's registrations the board changes only for a code the socket joined; that code stores the text and broadcasts once per join of it |
| Server.StartAll | utils/subtitles.js:44-84 | after a start every joined code has a fresh empty stream opened by this socket; the shared config holds the requested language, with its encoding, sample rate and interim-results flag kept; every stream previously open for a joined code is appended to the ended log, which only grows; each new stream has an id not handed out before and is not an ended one; other sessions' streams are kept |
| Server.AudioAll | utils/subtitles.js:87-91 | each open stream receives the chunk once per join of its code; nothing else changes |
| Server.StopAll | utils/subtitles.js:94-100 | no joined code keeps a stream; every stream that was open for a joined code is appended to the ended log, which only grows; other sessions' streams are kept; with nothing to stop nothing changes |
| Server.StopAllIdempotent | utils/subtitles.js:94-100 | stopping every joined code twice leaves the same caption state as stopping once |
| Server.TranslateAll | utils/subtitles.js:103-128 | all replies are unicast to the requester: none for an invalid request, otherwise one per registration, the i-th being translatedSubtitle with the i-th outcome's text or subtitleError on a service error |
| Server.Disconnect | server.js:121-125 | with the intended subtitle handler: a disconnect empties the socket's rooms and registrations, ends every stream the socket opened on a code it joined and appends each to the ended log, which only grows; keeps every stream another socket opened; keeps other sockets' rooms and registrations; leaves timers, objectives, transcripts, the shared request and the next stream id unchanged |
| Server.DisconnectAsWritten | utils/subtitles.js:131-141 | with the subtitle handler as written: a disconnect empties the socket's rooms and registrations, keeps other sockets' rooms and registrations, and changes no timer, objective or caption state |
| Server.Next | server.js:99-131 | with the intended join and disconnect, every step keeps membership equal to the registered codes, the timer registry consistent and stream ids fresh (registered ids distinct, below the next id and never ended); only joins and disconnects change membership; socket events never touch the timers |
| Server.ObjectiveStaysInSession | utils/objective.js:35 | with sockets in "ABC123" and "XYZ789", an objective set in "ABC123" reaches the first socket and never the second |
| Server.AudioBeforeStartDropped | utils/subtitles.js:87-91 | audio sent before any stream exists is dropped without changing any state |

## Findings

| source | as written | input that shows it | evidently intended | confidence | as-written member | corrected member |
|---|---|---|---|---|---|---|
| server.js:94 | `timerSocketHandler(io)` calls the object that utils/timer.js:54 exports; even with that call fixed, `handleTimerEvents` is undefined and the call at server.js:115 throws right after `socket.join` | on a fresh server, socket "s" joins "ABC123": as written it is put in the room and receives nothing, the intended join sends it `objectiveUpdate("")`; the uncaught `TypeError` then ends the process | join the room, register the subtitle and objective handlers and send their resyncs, with no timer handler | high; not executed | Server.JoinSessionAsWritten (shown by Server.JoinAsWrittenFromInit) | Server.JoinSession (used by Server.Next) |
| utils/subtitles.js:134 | the teardown guard compares `socket.id` with `Object.keys(rooms.get(code) \|\| {}).find(...)`, but `Object.keys` of a Set (or of `{}`) is empty, so `find` returns undefined and the guard is always false | socket "p" joins "ABC123", starts recognition, disconnects: the stream stays open and registered | end and remove the stream when the socket that started it disconnects, as the comment at utils/subtitles.js:135-136 describes | high; not executed | Subtitles.DisconnectAsWritten (shown by Subtitles.PresenterStreamOutlivesDisconnect) | Subtitles.Disconnect (used by Server.Disconnect) |

## Left out

- Express, MongoDB, passport, CORS and `server.listen`, and the auth, email and session-code modules: they are HTTP and database plumbing with no in-memory session state.
- Wall-clock time and `setInterval`: each interval firing is an explicit `IntervalFires` step; nothing bounds when it happens.
- The Google Speech, Translate and Text-to-Speech clients: recognition results, stream errors and translation outcomes are inputs. The Text-to-Speech client is created but never used.
- The `await` inside `requestTranslation`: the query is read and the reply emitted in one step. The source language is read before the suspension, so this changes only when the reply appears, not what it says.
- Logging (`console.log`, `console.warn`, `console.error`).
- Payload values other than strings or a missing field (numbers, objects, `null`) for codes, languages and texts. A missing or `null` field is modelled as `Undefined`, which is falsy like `""`.
- The socket's own room (Socket.IO puts each socket in a room named by its id). It matters only if a session code equals a socket id.
- An uncaught error thrown inside the interval callback when the entry is missing. `Timer.Tick` requires `Timer.Valid`, which every reachable registry satisfies (`Server.Next`), so the entry is always present.
- Server.Disconnect: uses the intended subtitle disconnect handler (see "## Findings"), so it ends a presenter's stream, which the program as written never does; `Server.DisconnectAsWritten` models the program.
- Server.Next: uses the intended join and disconnect (see "## Findings"); as written, the program throws at `server.js:94` and never handles a connection.
- Server.JoinSession: models the join with the call at `server.js:115` removed; `Server.JoinSessionAsWritten` models the join as written.
- Server.JoinSessionAsWritten: returns the state at the moment `server.js:115` throws; the uncaught `TypeError` ends the Node process, and the model does not represent the process exiting or the loss of every in-memory map that follows.
- Server.RejoinDoublesHandlers: holds for the intended join only; as written, a join registers no handlers at all.
- Timer.Countdown: assumes an integer duration. A fractional one (2.5) gives updates 1.5, 0.5, -0.5, three firings rather than `Firings`; an `undefined` one gives `NaN`, which is never `<= 0`, so the interval never clears and reports "running" forever.
- Timer.Start: models `duration` and `timeLeft` as integers, not JavaScript numbers (no fractions, `NaN` or infinities).
- Timer.Tick: decrements an integer; the floating-point and `NaN` cases of `Timer.Countdown` above are not modelled.
- Objective.JoinResync: the board is a plain JavaScript object, so a code naming an inherited property ("constructor", "toString") finds a truthy function and resyncs it instead of `""`; the model's map has no inherited keys.
- Subtitles.JoinResync: the same inherited-property lookup would resync a function for such a code; not modelled.
- Subtitles.Start: on a code naming an inherited property, `.end()` on the inherited function throws; not modelled.
- Subtitles.AudioChunk: on a code naming an inherited property, `.write` on the inherited function throws; not modelled.
- Subtitles.Stop: on a code naming an inherited property, `.end()` on the inherited function throws; not modelled.
- Objective.Set: a `setObjective` event with no payload object throws while destructuring it; `Text` models a missing field, not a missing payload.
- Server.SetObjectiveAll: the missing-payload throw of `Objective.Set` is not modelled.
- Subtitles.RequestTranslation: a `requestTranslation` event with no payload object throws while destructuring it; not modelled.
- Server.TranslateAll: the missing-payload throw of `Subtitles.RequestTranslation` is not modelled.
- Callers of `startCountdown` and `stopCountdown`: nothing in server.js, utils/, routes/ or controllers/ calls them (see above about `server.js:94`), so the `StartCountdown` and `StopCountdown` actions may happen at any time.

=== FILE: events.dfy ===
/** Payload values, wire events and emissions shared by every handler.

    Every handler of the model is a pure transition that returns the new
    state together with the list of emissions it performs, in order. */
module Events {

  /** A session code, as carried by `joinSession` and by the mutation events. */
  type Code = string

  /** The id Socket.IO gives a connection. */
  type SocketId = string

  datatype Option<+T> = None | Some(value: T)

  /** A string field of a client payload that the client may leave out.
      JavaScript treats both a missing field and the empty string as falsy. */
  datatype Text = Undefined | Str(s: string) {
    predicate Truthy() {
      Str? && s != ""
    }
  }

  /** The `status` field of a `countdownUpdate`. */
  datatype Status = Running | Finished

  /** The named events the handlers send to clients. */
  datatype Event =
    | CountdownUpdate(timeLeft: int, status: Status)   // 'countdownUpdate' {timeLeft, status}
    | ObjectiveUpdate(text: Text)                     // 'objectiveUpdate' with the bare text
    | SubtitleResync(transcript: string)              // 'subtitleUpdate' with a bare string (join)
    | SubtitleUpdate(transcript: string, isFinal: bool) // 'subtitleUpdate' {text, isFinal}
    | SubtitleError(message: string)                  // 'subtitleError'
    | TranslatedSubtitle(translation: string)         // 'translatedSubtitle'
    | SessionError(message: string)                   // 'sessionError'

  /** `socket.emit(...)` reaches one connection; `io.to(room).emit(...)`
      reaches every connection in the room. */
  datatype Emission =
    | Unicast(to: SocketId, event: Event)
    | Broadcast(room: Code, event: Event)

  /** The result of one handler run: the new state and what it emitted. */
  datatype Step<S> = Step(state: S, out: seq<Emission>)

  /** Every emission in `out` is a unicast to `sock`. */
  predicate UnicastTo(out: seq<Emission>, sock: SocketId) {
    forall i :: 0 <= i < |out| ==> out[i].Unicast? && out[i].to == sock
  }

  lemma UnicastToAppend(a: seq<Emission>, b: seq<Emission>, sock: SocketId)
    requires UnicastTo(a, sock) && UnicastTo(b, sock)
    ensures UnicastTo(a + b, sock)
  {
  }

  /** Number of times `c` occurs in `cs`. */
  function Occurrences(cs: seq<Code>, c: Code): (n: nat)
    ensures n <= |cs|
    ensures n == 0 <==> c !in cs
  {
    if cs == [] then 0 else (if cs[0] == c then 1 else 0) + Occurrences(cs[1..], c)
  }

  /** `n` copies of one value. */
  function Repeat<T>(x: T, n: nat): (r: seq<T>)
    ensures |r| == n
    ensures forall i :: 0 <= i < n ==> r[i] == x
  {
    if n == 0 then [] else [x] + Repeat(x, n - 1)
  }
}

=== FILE: objective.dfy ===
/** The objective board of utils/objective.js: `activeObjectives`, one
    stored value per session, the join-time resync and the `setObjective`
    handler a joined socket registers for its session. */
module Objective {
  import opened Events

  /** `activeObjectives`: the last text set for each session, stored verbatim
      (a payload that left the text out stores `undefined`). */
  type Board = map<Code, Text>

  function Current(b: Board, s: Code): Text {
    if s in b then b[s] else Undefined
  }

  /** Join-time resync for a socket joining `s`: one `objectiveUpdate` to that
      socket alone, carrying the stored text when it is truthy and `""`
      otherwise. */
  function JoinResync(b: Board, sock: SocketId, s: Code): (out: seq<Emission>)
    ensures |out| == 1 && UnicastTo(out, sock)
    ensures out[0].event.ObjectiveUpdate? && out[0].event.text.Str?
    ensures Current(b, s).Truthy() ==> out[0].event.text == Current(b, s)
    ensures !Current(b, s).Truthy() ==> out[0].event.text == Str("")
  {
    var shown := if Current(b, s).Truthy() then Current(b, s).s else "";
    [Unicast(sock, ObjectiveUpdate(Str(shown)))]
  }

  /** The `setObjective` handler registered by a join to `joined`: applied
      and broadcast to that room only when the payload's code equals
      `joined`; otherwise nothing changes and nothing is sent. */
  function Set(b: Board, joined: Code, incoming: Text, text: Text): (r: Step<Board>)
    ensures incoming == Str(joined) ==>
      && Current(r.state, joined) == text
      && r.out == [Broadcast(joined, ObjectiveUpdate(text))]
    ensures incoming != Str(joined) ==> r.state == b && r.out == []
    ensures forall c :: c != joined ==> Current(r.state, c) == Current(b, c)
    ensures r.state.Keys <= b.Keys + {joined}
  {
    if incoming == Str(joined) then Step(b[joined := text], [Broadcast(joined, ObjectiveUpdate(text))])
    else Step(b, [])
  }

  /** After a matching set, the next joiner's resync carries the new text
      (or `""` when the text is falsy). */
  lemma SetThenJoin(b: Board, s: Code, text: Text, sock: SocketId)
    ensures var b' := Set(b, s, Str(s), text).state;
      JoinResync(b', sock, s) == [Unicast(sock, ObjectiveUpdate(if text.Truthy() then text else Str("")))]
  {
  }

  /** Setting the same text twice stores what setting it once stores. */
  lemma SetIdempotent(b: Board, s: Code, incoming: Text, text: Text)
    ensures var once := Set(b, s, incoming, text).state;
      Set(once, s, incoming, text).state == once
  {
  }
}

=== FILE: rooms.dfy ===
/** Socket.IO room membership (server.js:110): a socket may be in any number
    of rooms; `socket.join` only adds, and a disconnect removes the socket
    from all of them. */
module Rooms {
  import opened Events

  /** The rooms each connected socket has joined. */
  type Members = map<SocketId, set<Code>>

  function RoomsOf(m: Members, sock: SocketId): set<Code> {
    if sock in m then m[sock] else {}
  }

  /** `socket.join(c)`: adds `c` to the socket's rooms and keeps the others. */
  function Join(m: Members, sock: SocketId, c: Code): (r: Members)
    ensures RoomsOf(r, sock) == RoomsOf(m, sock) + {c}
    ensures forall o :: o != sock ==> RoomsOf(r, o) == RoomsOf(m, o)
    ensures r.Keys == m.Keys + {sock}
  {
    m[sock := RoomsOf(m, sock) + {c}]
  }

  /** What the adapter does when a socket disconnects: it leaves every room. */
  function LeaveAll(m: Members, sock: SocketId): (r: Members)
    ensures RoomsOf(r, sock) == {}
    ensures forall o :: o != sock ==> RoomsOf(r, o) == RoomsOf(m, o)
    ensures r.Keys == m.Keys - {sock}
  {
    m - {sock}
  }

  /** The sockets an emission reaches: the addressee of a unicast, and every
      socket whose rooms contain the target of a broadcast. */
  function Receivers(m: Members, e: Emission): (r: set<SocketId>)
    ensures e.Unicast? ==> r == {e.to}
    ensures e.Broadcast? ==> forall o :: o in r <==> e.room in RoomsOf(m, o)
  {
    match e
    case Unicast(to, _) => {to}
    case Broadcast(room, _) => set o | o in m && room in m[o]
  }

  /** Joining the same room again leaves membership as it was. */
  lemma JoinIdempotent(m: Members, sock: SocketId, c: Code)
    ensures Join(Join(m, sock, c), sock, c) == Join(m, sock, c)
  {
  }

  /** After joining `c`, a socket receives broadcasts to `c`, and it still
      receives broadcasts to every room it was in before. */
  lemma JoinedSocketReceives(m: Members, sock: SocketId, c: Code, ev: Event)
    ensures sock in Receivers(Join(m, sock, c), Broadcast(c, ev))
    ensures forall a :: a in RoomsOf(m, sock) ==> sock in Receivers(Join(m, sock, c), Broadcast(a, ev))
  {
  }

  /** A socket that never joined room `a` receives no broadcast to `a`, and
      leaving all rooms stops every broadcast reaching it. */
  lemma BroadcastStaysInRoom(m: Members, sock: SocketId, a: Code, ev: Event)
    ensures a !in RoomsOf(m, sock) ==> sock !in Receivers(m, Broadcast(a, ev))
    ensures sock !in Receivers(LeaveAll(m, sock), Broadcast(a, ev))
  {
  }
}

=== FILE: server.dfy ===
/** The Socket.IO wiring of server.js: the `joinSession` handler
    (server.js:103-118) and how later socket events reach the handlers it
    registers.

    Every successful join registers a fresh set of handlers for its code, so
    `listeners[sock]` is the sequence of codes the socket has joined, in
    order and with repeats; an event from the socket runs the matching
    handler of every registration, in that order. Room membership is the set
    of those codes. */
module Server {
  import opened Events
  import Rooms
  import Timer
  import Objective
  import Subtitles

  const NoCodeMessage := "No session code provided."

  datatype Server = Server(
    rooms: Rooms.Members,
    listeners: map<SocketId, seq<Code>>,
    timers: Timer.Registry,
    board: Objective.Board,
    subs: Subtitles.State)

  const Init := Server(map[], map[], Timer.Empty, map[], Subtitles.Init)

  function Listeners(sv: Server, sock: SocketId): seq<Code> {
    if sock in sv.listeners then sv.listeners[sock] else []
  }

  /** Membership is exactly the set of registered codes, and the timer
      registry is consistent. */
  ghost predicate Valid(sv: Server) {
    && Timer.Valid(sv.timers)
    && sv.rooms.Keys == sv.listeners.Keys
    && (forall k :: k in sv.listeners ==> sv.rooms[k] == (set c | c in sv.listeners[k]))
    && Subtitles.Valid(sv.subs)
  }

  lemma InitValid()
    ensures Valid(Init)
  {
    Subtitles.InitValid();
  }

  /** `joinSession(code)` as intended, that is without the call to the
      timer handler that utils/timer.js does not provide: a falsy code gets a
      `sessionError` and nothing else; otherwise the socket joins the room,
      registers the handlers, and receives the subtitle resync (if any) and
      then the objective resync. */
  function JoinSession(sv: Server, sock: SocketId, code: Text): (r: Step<Server>)
    ensures !code.Truthy() ==> r.state == sv && r.out == [Unicast(sock, SessionError(NoCodeMessage))]
    ensures UnicastTo(r.out, sock)
    ensures code.Truthy() ==>
      && Rooms.RoomsOf(r.state.rooms, sock) == Rooms.RoomsOf(sv.rooms, sock) + {code.s}
      && Listeners(r.state, sock) == Listeners(sv, sock) + [code.s]
      && r.out == Subtitles.JoinResync(sv.subs, sock, code.s) + Objective.JoinResync(sv.board, sock, code.s)
    ensures forall o :: o != sock ==> Rooms.RoomsOf(r.state.rooms, o) == Rooms.RoomsOf(sv.rooms, o)
    ensures forall o :: o != sock ==> Listeners(r.state, o) == Listeners(sv, o)
    ensures r.state.timers == sv.timers && r.state.board == sv.board && r.state.subs == sv.subs
    ensures Valid(sv) ==> Valid(r.state)
  {
    if !code.Truthy() then
      Step(sv, [Unicast(sock, SessionError(NoCodeMessage))])
    else
      var c := code.s;
      var regs := Listeners(sv, sock) + [c];
      assert (set x | x in regs) == (set x | x in Listeners(sv, sock)) + {c};
      var out := Subtitles.JoinResync(sv.subs, sock, c) + Objective.JoinResync(sv.board, sock, c);
      UnicastToAppend(Subtitles.JoinResync(sv.subs, sock, c), Objective.JoinResync(sv.board, sock, c), sock);
      Step(sv.(rooms := Rooms.Join(sv.rooms, sock, c), listeners := sv.listeners[sock := regs]), out)
  }

  /** `joinSession(code)` as written. `handleTimerEvents` is `undefined`
      (utils/timer.js exports no such function), so the call after
      `socket.join` throws: the socket is in the room, but no handler is
      registered and no resync is sent. Nothing catches that TypeError, so
      in Node it ends the server process and every in-memory map with it;
      the state returned here is the state at the moment of the throw. */
  function JoinSessionAsWritten(sv: Server, sock: SocketId, code: Text): (r: Step<Server>)
    ensures !code.Truthy() ==> r == JoinSession(sv, sock, code)
    ensures code.Truthy() ==>
      && Rooms.RoomsOf(r.state.rooms, sock) == Rooms.RoomsOf(sv.rooms, sock) + {code.s}
      && r.state.listeners == sv.listeners
      && r.out == []
    ensures forall o :: o != sock ==> Rooms.RoomsOf(r.state.rooms, o) == Rooms.RoomsOf(sv.rooms, o)
    ensures forall o :: o != sock ==> Listeners(r.state, o) == Listeners(sv, o)
    ensures r.state.timers == sv.timers && r.state.board == sv.board && r.state.subs == sv.subs
  {
    if !code.Truthy() then JoinSession(sv, sock, code)
    else Step(sv.(rooms := Rooms.Join(sv.rooms, sock, code.s)), [])
  }

  /** As written, a socket joining a session whose objective is set gets no
      `objectiveUpdate` and no handlers; the intended join resyncs it. */
  lemma JoinAsWrittenSkipsResync(sv: Server, sock: SocketId, c: Code, text: string)
    requires c != "" && text != "" && Objective.Current(sv.board, c) == Str(text)
    ensures JoinSessionAsWritten(sv, sock, Str(c)).out == []
    ensures Listeners(JoinSessionAsWritten(sv, sock, Str(c)).state, sock) == Listeners(sv, sock)
    ensures var out := JoinSession(sv, sock, Str(c)).out;
      |out| > 0 && out[|out| - 1] == Unicast(sock, ObjectiveUpdate(Str(text)))
  {
  }

  /** From a fresh server, the first join to any code: as written the
      joiner receives nothing, while the intended join sends it the empty
      objective. */
  lemma JoinAsWrittenFromInit(sock: SocketId, c: Code)
    requires c != ""
    ensures JoinSessionAsWritten(Init, sock, Str(c)).out == []
    ensures JoinSession(Init, sock, Str(c)).out == [Unicast(sock, ObjectiveUpdate(Str("")))]
  {
  }

  /** `setObjective` reaching each registration of the socket in turn. The
      board changes only when the payload names a code the socket joined;
      then every registration on that code stores the text and broadcasts
      it, once per join. */
  function SetObjectiveAll(b: Objective.Board, regs: seq<Code>, incoming: Text, text: Text): (r: Step<Objective.Board>)
    ensures incoming.Str? && incoming.s in regs ==>
      && Objective.Current(r.state, incoming.s) == text
      && r.out == Repeat(Broadcast(incoming.s, ObjectiveUpdate(text)), Occurrences(regs, incoming.s))
    ensures !(incoming.Str? && incoming.s in regs) ==> r.state == b && r.out == []
    ensures forall c :: incoming != Str(c) ==> Objective.Current(r.state, c) == Objective.Current(b, c)
    decreases |regs|
  {
    if regs == [] then Step(b, [])
    else
      var a := Objective.Set(b, regs[0], incoming, text);
      var rest := SetObjectiveAll(a.state, regs[1..], incoming, text);
      assert regs == [regs[0]] + regs[1..];
      Step(rest.state, a.out + rest.out)
  }

  /** The open stream of `c` is one the step should end: any open stream
      when `only` is `None`, otherwise only one opened by `only.value`. */
  predicate Selected(st: Subtitles.State, c: Code, only: Option<SocketId>) {
    c in st.streams && (only.None? || st.streams[c].starter == only.value)
  }

  /** Going from `st` to `r` only appended to the log of ended streams, and
      every selected stream that was open for a code in `regs` is among the
      appended ones. */
  predicate EndsPrevious(st: Subtitles.State, r: Subtitles.State, regs: seq<Code>, only: Option<SocketId>) {
    && |st.ended| <= |r.ended| && r.ended[..|st.ended|] == st.ended
    && forall c :: c in regs && Selected(st, c, only) ==> st.streams[c] in r.ended[|st.ended|..]
  }

  /** The inductive step of `EndsPrevious` for a handler run on `regs[0]`
      followed by the remaining registrations. */
  lemma EndedStep(st: Subtitles.State, a: Subtitles.State, r: Subtitles.State, regs: seq<Code>, only: Option<SocketId>)
    requires regs != []
    requires Selected(st, regs[0], only) ==> a.ended == st.ended + [st.streams[regs[0]]]
    requires !Selected(st, regs[0], only) ==> a.ended == st.ended
    requires forall c :: c != regs[0] && c in st.streams ==> c in a.streams && a.streams[c] == st.streams[c]
    requires EndsPrevious(a, r, regs[1..], only)
    ensures EndsPrevious(st, r, regs, only)
  {
    var n, m := |st.ended|, |a.ended|;
    assert r.ended[..n] == r.ended[..m][..n];
    forall c | c in regs && Selected(st, c, only)
      ensures st.streams[c] in r.ended[n..]
    {
      if c == regs[0] {
        assert r.ended[n] == a.ended[n] == st.streams[c];
        assert r.ended[n..][0] == st.streams[c];
      } else {
        assert c in regs[1..] && Selected(a, c, only);
        var j :| 0 <= j < |r.ended[m..]| && r.ended[m..][j] == a.streams[c];
        assert r.ended[n..][j + m - n] == st.streams[c];
      }
    }
  }

  /** `startSpeechRecognition` reaching each registration: every joined code
      ends with a fresh stream opened by this socket, and the shared config
      holds the requested language. */
  function StartAll(st: Subtitles.State, sock: SocketId, regs: seq<Code>, lang: Text): (r: Subtitles.State)
    ensures forall c :: c in regs ==>
      && c in r.streams && r.streams[c].starter == sock && r.streams[c].written == []
    ensures regs != [] ==> r.request.config.languageCode == Subtitles.StartLanguage(lang)
    ensures r.request.config.encoding == st.request.config.encoding
    ensures r.request.config.sampleRateHertz == st.request.config.sampleRateHertz
    ensures r.request.interimResults == st.request.interimResults
    ensures regs == [] ==> r == st
    ensures forall c :: c !in regs ==> (c in r.streams <==> c in st.streams)
    ensures forall c :: c !in regs && c in st.streams ==> r.streams[c] == st.streams[c]
    ensures EndsPrevious(st, r, regs, None)
    ensures r.nextId == st.nextId + |regs|
    ensures Subtitles.Valid(st) ==> Subtitles.Valid(r)
    ensures Subtitles.Valid(st) ==> forall c :: c in regs ==> r.streams[c] !in r.ended && r.streams[c].id >= st.nextId
    ensures r.transcripts == st.transcripts
    decreases |regs|
  {
    if regs == [] then st
    else
      var a := Subtitles.Start(st, sock, regs[0], lang).state;
      var r := StartAll(a, sock, regs[1..], lang);
      EndedStep(st, a, r, regs, None);
      r
  }

  /** `audioChunk` reaching each registration: each open stream of a joined
      code receives the chunk once per join of that code; nothing else
      changes. */
  function AudioAll(st: Subtitles.State, regs: seq<Code>, chunk: Subtitles.Chunk): (r: Subtitles.State)
    ensures r.streams.Keys == st.streams.Keys
    ensures forall c :: c in st.streams ==>
      r.streams[c] == st.streams[c].(written := st.streams[c].written + Repeat(chunk, Occurrences(regs, c)))
    ensures r.transcripts == st.transcripts && r.request == st.request && r.ended == st.ended
    ensures r.nextId == st.nextId
    ensures Subtitles.Valid(st) ==> Subtitles.Valid(r)
    decreases |regs|
  {
    if regs == [] then st
    else
      var a := Subtitles.AudioChunk(st, regs[0], chunk).state;
      var r := AudioAll(a, regs[1..], chunk);
      AudioStep(st, regs, chunk, a, r);
      r
  }

  /** The inductive step of `AudioAll`: the first registration's write
      followed by the rest's writes adds up to one write per join. */
  lemma AudioStep(st: Subtitles.State, regs: seq<Code>, chunk: Subtitles.Chunk, a: Subtitles.State, r: Subtitles.State)
    requires regs != [] && a == Subtitles.AudioChunk(st, regs[0], chunk).state
    requires r.streams.Keys == a.streams.Keys
    requires forall c :: c in a.streams ==>
      r.streams[c] == a.streams[c].(written := a.streams[c].written + Repeat(chunk, Occurrences(regs[1..], c)))
    ensures forall c :: c in st.streams ==>
      r.streams[c] == st.streams[c].(written := st.streams[c].written + Repeat(chunk, Occurrences(regs, c)))
  {
    forall c | c in st.streams
      ensures r.streams[c] == st.streams[c].(written := st.streams[c].written + Repeat(chunk, Occurrences(regs, c)))
    {
      var k := Occurrences(regs[1..], c);
      if regs[0] == c {
        assert Repeat(chunk, k + 1) == [chunk] + Repeat(chunk, k);
        assert a.streams[c].written + Repeat(chunk, k) == st.streams[c].written + Repeat(chunk, k + 1);
      }
    }
  }

  /** `stopSpeechRecognition` reaching each registration: no joined code
      keeps a stream; other sessions' streams are untouched. */
  function StopAll(st: Subtitles.State, regs: seq<Code>): (r: Subtitles.State)
    ensures forall c :: c in regs ==> c !in r.streams
    ensures forall c :: c !in regs ==> (c in r.streams <==> c in st.streams)
    ensures forall c :: c !in regs && c in st.streams ==> r.streams[c] == st.streams[c]
    ensures (forall c :: c in regs ==> c !in st.streams) ==> r == st
    ensures EndsPrevious(st, r, regs, None)
    ensures r.nextId == st.nextId
    ensures Subtitles.Valid(st) ==> Subtitles.Valid(r)
    ensures r.transcripts == st.transcripts && r.request == st.request
    decreases |regs|
  {
    if regs == [] then st
    else
      var a := Subtitles.Stop(st, regs[0]).state;
      var r := StopAll(a, regs[1..]);
      EndedStep(st, a, r, regs, None);
      r
  }

  /** Stopping twice is stopping once. */
  lemma StopAllIdempotent(st: Subtitles.State, regs: seq<Code>)
    ensures StopAll(StopAll(st, regs), regs) == StopAll(st, regs)
  {
  }

  /** `requestTranslation` reaching each registration: each one validates
      the payload and, when valid, answers the requester once with its own
      service outcome; nothing is broadcast. */
  function TranslateAll(st: Subtitles.State, sock: SocketId, regs: seq<Code>, text: Text, target: Text,
                        outcomes: seq<Subtitles.Outcome>): (out: seq<Emission>)
    requires |outcomes| == |regs|
    ensures UnicastTo(out, sock)
    ensures !(text.Truthy() && target.Truthy()) ==> out == []
    ensures text.Truthy() && target.Truthy() ==> |out| == |regs|
    ensures text.Truthy() && target.Truthy() ==> forall i :: 0 <= i < |out| ==>
      out[i].event == (if outcomes[i].Translated? then TranslatedSubtitle(outcomes[i].text)
                       else SubtitleError(Subtitles.TranslationErrorMessage))
    decreases |regs|
  {
    if regs == [] then []
    else
      var a := Subtitles.RequestTranslation(st, sock, text, target, outcomes[0]);
      var rest := TranslateAll(st, sock, regs[1..], text, target, outcomes[1..]);
      UnicastToAppend(a, rest, sock);
      a + rest
  }

  /** The subtitle `disconnect` handler of each registration, as intended:
      every stream this socket started on a code it joined is ended and
      logged; streams other sockets opened are kept. */
  function DisconnectAll(st: Subtitles.State, sock: SocketId, regs: seq<Code>): (r: Subtitles.State)
    ensures forall c :: c in regs && c in r.streams ==> r.streams[c].starter != sock
    ensures forall c :: c in regs && c in st.streams && st.streams[c].starter != sock ==>
      c in r.streams && r.streams[c] == st.streams[c]
    ensures forall c :: c !in regs ==> (c in r.streams <==> c in st.streams)
    ensures forall c :: c !in regs && c in st.streams ==> r.streams[c] == st.streams[c]
    ensures EndsPrevious(st, r, regs, Some(sock))
    ensures Subtitles.Valid(st) ==> Subtitles.Valid(r)
    ensures r.transcripts == st.transcripts && r.request == st.request && r.nextId == st.nextId
    decreases |regs|
  {
    if regs == [] then st
    else
      var a := Subtitles.Disconnect(st, sock, regs[0]);
      var r := DisconnectAll(a, sock, regs[1..]);
      EndedStep(st, a, r, regs, Some(sock));
      r
  }

  /** A socket disconnects, with the subtitle handler as intended
      (`Subtitles.Disconnect`): it leaves every room, its registrations go,
      and the streams it started are ended. Timers and objectives are
      untouched (the server-level handler only logs). */
  function Disconnect(sv: Server, sock: SocketId): (r: Server)
    ensures Rooms.RoomsOf(r.rooms, sock) == {} && Listeners(r, sock) == []
    ensures forall o :: o != sock ==> Rooms.RoomsOf(r.rooms, o) == Rooms.RoomsOf(sv.rooms, o)
    ensures forall o :: o != sock ==> Listeners(r, o) == Listeners(sv, o)
    ensures r.timers == sv.timers && r.board == sv.board && r.subs.transcripts == sv.subs.transcripts
    ensures r.subs.request == sv.subs.request && r.subs.nextId == sv.subs.nextId
    ensures forall c :: c in Listeners(sv, sock) && c in r.subs.streams ==> r.subs.streams[c].starter != sock
    ensures forall c :: c in sv.subs.streams && sv.subs.streams[c].starter != sock ==>
      c in r.subs.streams && r.subs.streams[c] == sv.subs.streams[c]
    ensures forall c :: c !in Listeners(sv, sock) ==> (c in r.subs.streams <==> c in sv.subs.streams)
    ensures EndsPrevious(sv.subs, r.subs, Listeners(sv, sock), Some(sock))
    ensures Valid(sv) ==> Valid(r)
  {
    var subs := DisconnectAll(sv.subs, sock, Listeners(sv, sock));
    Server(Rooms.LeaveAll(sv.rooms, sock), sv.listeners - {sock}, sv.timers, sv.board, subs)
  }

  /** A socket disconnects, with the subtitle handler as written: it leaves
      every room and its registrations go; no caption state changes. */
  function DisconnectAsWritten(sv: Server, sock: SocketId): (r: Server)
    ensures Rooms.RoomsOf(r.rooms, sock) == {} && Listeners(r, sock) == []
    ensures forall o :: o != sock ==> Rooms.RoomsOf(r.rooms, o) == Rooms.RoomsOf(sv.rooms, o)
    ensures forall o :: o != sock ==> Listeners(r, o) == Listeners(sv, o)
    ensures r.timers == sv.timers && r.board == sv.board && r.subs == sv.subs
    ensures Valid(sv) ==> Valid(r)
  {
    Server(Rooms.LeaveAll(sv.rooms, sock), sv.listeners - {sock}, sv.timers, sv.board,
           DisconnectAllAsWritten(sv.subs, sock, Listeners(sv, sock), sv.rooms))
  }

  /** The as-written subtitle `disconnect` handler of each registration. */
  function DisconnectAllAsWritten(st: Subtitles.State, sock: SocketId, regs: seq<Code>, rooms: Rooms.Members): (r: Subtitles.State)
    ensures r == st
    decreases |regs|
  {
    if regs == [] then st
    else
      var members := set o | o in rooms && regs[0] in rooms[o];
      DisconnectAllAsWritten(Subtitles.DisconnectAsWritten(st, sock, regs[0], members), sock, regs[1..], rooms)
  }

  /** Everything that can happen: socket events, the timer calls (which nothing in
      server.js, utils/, routes/ or controllers/ issues), interval firings and recognition callbacks. */
  datatype Action =
    | JoinSessionEvent(sock: SocketId, code: Text)
    | SetObjectiveEvent(sock: SocketId, incoming: Text, text: Text)
    | StartSpeechEvent(sock: SocketId, lang: Text)
    | AudioChunkEvent(sock: SocketId, chunk: Subtitles.Chunk)
    | StopSpeechEvent(sock: SocketId)
    | TranslationEvent(sock: SocketId, text: Text, target: Text, outcomes: seq<Subtitles.Outcome>)
    | DisconnectEvent(sock: SocketId)
    | StartCountdown(session: Code, duration: int)
    | StopCountdown(session: Code)
    | IntervalFires(handle: nat)
    | RecognitionData(session: Code, results: seq<Subtitles.SpeechResult>)
    | RecognitionError(session: Code)
  {
    /** Sent by a client socket rather than by a timer or the recognizer. */
    predicate FromSocket() {
      || JoinSessionEvent? || SetObjectiveEvent? || StartSpeechEvent? || AudioChunkEvent?
      || StopSpeechEvent? || TranslationEvent? || DisconnectEvent?
    }
  }

  /** A translation event supplies one service outcome per registration. */
  predicate Enabled(sv: Server, a: Action) {
    a.TranslationEvent? ==> |a.outcomes| == |Listeners(sv, a.sock)|
  }

  /** One atomic transition of the single-threaded server, with the join
      and the subtitle disconnect handler as intended (`JoinSession`,
      `Disconnect`). */
  function Next(sv: Server, a: Action): (r: Step<Server>)
    requires Valid(sv) && Enabled(sv, a)
    ensures Valid(r.state)
    ensures !a.JoinSessionEvent? && !a.DisconnectEvent? ==> r.state.rooms == sv.rooms && r.state.listeners == sv.listeners
    ensures a.FromSocket() ==> r.state.timers == sv.timers
    ensures a.DisconnectEvent? ==> r.out == [] && r.state.board == sv.board
  {
    match a
    case JoinSessionEvent(sock, code) => JoinSession(sv, sock, code)
    case SetObjectiveEvent(sock, incoming, text) =>
      var s := SetObjectiveAll(sv.board, Listeners(sv, sock), incoming, text);
      Step(sv.(board := s.state), s.out)
    case StartSpeechEvent(sock, lang) =>
      Step(sv.(subs := StartAll(sv.subs, sock, Listeners(sv, sock), lang)), [])
    case AudioChunkEvent(sock, chunk) =>
      Step(sv.(subs := AudioAll(sv.subs, Listeners(sv, sock), chunk)), [])
    case StopSpeechEvent(sock) =>
      Step(sv.(subs := StopAll(sv.subs, Listeners(sv, sock))), [])
    case TranslationEvent(sock, text, target, outcomes) =>
      Step(sv, TranslateAll(sv.subs, sock, Listeners(sv, sock), text, target, outcomes))
    case DisconnectEvent(sock) => Step(Disconnect(sv, sock), [])
    case StartCountdown(session, duration) =>
      Step(sv.(timers := Timer.Start(sv.timers, session, duration).0), [])
    case StopCountdown(session) =>
      Step(sv.(timers := Timer.Stop(sv.timers, session).0), [])
    case IntervalFires(handle) =>
      var s := Timer.Tick(sv.timers, handle);
      Step(sv.(timers := s.state), s.out)
    case RecognitionData(session, results) =>
      var s := Subtitles.Recognized(sv.subs, session, results);
      Step(sv.(subs := s.state), s.out)
    case RecognitionError(session) =>
      var s := Subtitles.RecognitionFailed(sv.subs, session);
      Step(sv.(subs := s.state), s.out)
  }

  /** Whatever a join emits reaches the joining socket and nobody else. */
  lemma JoinReachesOnlyJoiner(sv: Server, sock: SocketId, code: Text)
    ensures var r := JoinSession(sv, sock, code);
      forall i :: 0 <= i < |r.out| ==> Rooms.Receivers(r.state.rooms, r.out[i]) == {sock}
  {
  }

  /** Joining the same code twice keeps membership as one join leaves it,
      but registers the handlers twice. */
  lemma RejoinDoublesHandlers(sv: Server, sock: SocketId, c: Code)
    requires c != ""
    ensures var once := JoinSession(sv, sock, Str(c)).state;
      var twice := JoinSession(once, sock, Str(c)).state;
      && twice.rooms == once.rooms
      && Listeners(twice, sock) == Listeners(sv, sock) + [c, c]
  {
  }

  /** Two sockets in two sessions: an objective set by the first socket
      reaches the first and never the second. */
  lemma ObjectiveStaysInSession(t: Text)
    ensures var s1 := JoinSession(Init, "s1", Str("ABC123")).state;
      var sv := JoinSession(s1, "s2", Str("XYZ789")).state;
      var r := Next(sv, SetObjectiveEvent("s1", Str("ABC123"), t));
      && r.out == [Broadcast("ABC123", ObjectiveUpdate(t))]
      && "s1" in Rooms.Receivers(sv.rooms, r.out[0])
      && "s2" !in Rooms.Receivers(sv.rooms, r.out[0])
  {
  }

  /** Audio sent before any start is dropped: no stream appears and no other
      session is affected. */
  lemma AudioBeforeStartDropped(sv: Server, sock: SocketId, chunk: Subtitles.Chunk)
    requires forall c :: c in Listeners(sv, sock) ==> c !in sv.subs.streams
    ensures AudioAll(sv.subs, Listeners(sv, sock), chunk) == sv.subs
  {
    var r := AudioAll(sv.subs, Listeners(sv, sock), chunk);
    forall c | c in sv.subs.streams
      ensures r.streams[c] == sv.subs.streams[c]
    {
      assert Occurrences(Listeners(sv, sock), c) == 0;
      assert sv.subs.streams[c].written + Repeat(chunk, 0) == sv.subs.streams[c].written;
    }
    assert r.streams == sv.subs.streams;
  }
}

=== FILE: subtitles.dfy ===
/** The caption pipeline of utils/subtitles.js: `activeSubtitles` (the last
    final transcript per session), `recognitionStreams` (at most one open
    recognition stream per session), the module-level recognition request
    whose config every start shares, and the handlers a joined socket
    registers for its session.

    The recognition and translation services are outside the model: what a
    stream reports and how a translation ends are inputs. */
module Subtitles {
  import opened Events

  type Chunk = seq<bv8>

  datatype Config = Config(encoding: string, sampleRateHertz: int, languageCode: string)

  /** The module-level `request`. `{ ...request }` copies only its top level,
      so every start shares (and overwrites) one `config`. */
  datatype Request = Request(config: Config, interimResults: bool)

  const DefaultLanguage := "en-US"
  const InitialRequest := Request(Config("LINEAR16", 16000, DefaultLanguage), true)
  const RecognitionErrorMessage := "Speech recognition error."
  const TranslationErrorMessage := "Translation service error."

  /** An open recognition stream: the audio written to it so far and the
      socket that opened it. It has no config of its own: the request it was
      opened with shares `config` with the module-level request, so the
      config a stream holds is always `State.request.config`. */
  datatype Stream = Stream(id: nat, written: seq<Chunk>, starter: SocketId)

  /** `ended` lists, in order, every stream whose `end()` has been called. */
  datatype State = State(
    transcripts: map<Code, string>,
    streams: map<Code, Stream>,
    request: Request,
    nextId: nat,
    ended: seq<Stream>)

  const Init := State(map[], map[], InitialRequest, 0, [])

  /** Stream ids come from `nextId`: every id in use is below it, open
      streams have distinct ids, and no open stream's id is among the ended
      ones. Each `streamingRecognize` call creates a new stream object; the
      ids stand for that object identity. */
  ghost predicate Valid(st: State) {
    && (forall c :: c in st.streams ==> st.streams[c].id < st.nextId)
    && (forall i :: 0 <= i < |st.ended| ==> st.ended[i].id < st.nextId)
    && (forall c, d :: c in st.streams && d in st.streams && c != d ==> st.streams[c].id != st.streams[d].id)
    && (forall c, i :: c in st.streams && 0 <= i < |st.ended| ==> st.streams[c].id != st.ended[i].id)
  }

  lemma InitValid()
    ensures Valid(Init)
  {
  }

  /** An open stream is never one that has been ended. */
  lemma RegisteredNeverEnded(st: State, s: Code)
    requires Valid(st) && s in st.streams
    ensures st.streams[s] !in st.ended
  {
  }

  /** One result of a recognition `data` event. */
  datatype SpeechResult = SpeechResult(alternatives: seq<string>, isFinal: bool)

  /** A translation request as sent to the service. */
  datatype Query = Query(text: string, source: string, target: string)

  /** How the service call ends: a translated text or a thrown error. */
  datatype Outcome = Translated(text: string) | ServiceError

  /** Join-time resync for a socket joining `s`: a `subtitleUpdate` to that
      socket alone when a non-empty final transcript is stored, and nothing
      otherwise. */
  function JoinResync(st: State, sock: SocketId, s: Code): (out: seq<Emission>)
    ensures UnicastTo(out, sock)
    ensures |out| <= 1
    ensures |out| == 1 <==> s in st.transcripts && st.transcripts[s] != ""
    ensures |out| == 1 ==> out[0].event == SubtitleResync(st.transcripts[s])
  {
    if s in st.transcripts && st.transcripts[s] != "" then
      [Unicast(sock, SubtitleResync(st.transcripts[s]))]
    else []
  }

  /** The language a start asks for: the argument when truthy, otherwise
      the default. */
  function StartLanguage(lang: Text): string {
    if lang.Truthy() then lang.s else DefaultLanguage
  }

  /** `startSpeechRecognition` for session `s` from socket `sock`: ends and
      drops the session's stream if there is one, writes the language into
      the shared config, and opens a fresh stream with an empty audio log. */
  function Start(st: State, sock: SocketId, s: Code, lang: Text): (r: Step<State>)
    ensures r.out == []
    ensures s in r.state.streams
    ensures r.state.streams[s].written == [] && r.state.streams[s].starter == sock
    ensures r.state.streams[s].id == st.nextId && r.state.nextId == st.nextId + 1
    ensures Valid(st) ==> Valid(r.state) && r.state.streams[s] !in r.state.ended
    ensures r.state.request.config.languageCode == StartLanguage(lang)
    ensures r.state.request.config.encoding == st.request.config.encoding
    ensures r.state.request.config.sampleRateHertz == st.request.config.sampleRateHertz
    ensures r.state.request.interimResults == st.request.interimResults
    ensures s in st.streams ==> r.state.ended == st.ended + [st.streams[s]]
    ensures s !in st.streams ==> r.state.ended == st.ended
    ensures r.state.transcripts == st.transcripts
    ensures forall c :: c != s ==> (c in r.state.streams <==> c in st.streams)
    ensures forall c :: c != s && c in st.streams ==> r.state.streams[c] == st.streams[c]
  {
    var ended := if s in st.streams then st.ended + [st.streams[s]] else st.ended;
    var request := st.request.(config := st.request.config.(languageCode := StartLanguage(lang)));
    var created := Stream(st.nextId, [], sock);
    Step(st.(streams := st.streams[s := created], request := request, nextId := st.nextId + 1, ended := ended), [])
  }

  /** `audioChunk` for session `s`: written to the session's stream when one
      exists, dropped silently otherwise. */
  function AudioChunk(st: State, s: Code, chunk: Chunk): (r: Step<State>)
    ensures r.out == []
    ensures s !in st.streams ==> r.state == st
    ensures s in st.streams ==>
      && s in r.state.streams
      && r.state.streams[s].written == st.streams[s].written + [chunk]
      && r.state.streams[s] == st.streams[s].(written := r.state.streams[s].written)
    ensures r.state.streams.Keys == st.streams.Keys
    ensures forall c :: c != s && c in st.streams ==> r.state.streams[c] == st.streams[c]
    ensures r.state.transcripts == st.transcripts && r.state.request == st.request && r.state.ended == st.ended
    ensures r.state.nextId == st.nextId
    ensures Valid(st) ==> Valid(r.state)
  {
    if s in st.streams then
      var current := st.streams[s];
      Step(st.(streams := st.streams[s := current.(written := current.written + [chunk])]), [])
    else Step(st, [])
  }

  /** `stopSpeechRecognition` for session `s`: ends and drops the stream when
      there is one, and is a no-op otherwise. */
  function Stop(st: State, s: Code): (r: Step<State>)
    ensures r.out == []
    ensures s !in r.state.streams
    ensures s !in st.streams ==> r.state == st
    ensures s in st.streams ==> r.state.ended == st.ended + [st.streams[s]]
    ensures forall c :: c != s ==> (c in r.state.streams <==> c in st.streams)
    ensures forall c :: c != s && c in st.streams ==> r.state.streams[c] == st.streams[c]
    ensures r.state.transcripts == st.transcripts && r.state.request == st.request
    ensures r.state.nextId == st.nextId
    ensures Valid(st) ==> Valid(r.state)
  {
    if s in st.streams then
      Step(st.(streams := st.streams - {s}, ended := st.ended + [st.streams[s]]), [])
    else Step(st, [])
  }

  /** Once the session's stream is stopped, audio for it is dropped. */
  lemma StopThenAudioDropped(st: State, s: Code, chunk: Chunk)
    ensures var stopped := Stop(st, s).state;
      AudioChunk(stopped, s, chunk).state == stopped
  {
  }

  /** Stopping twice is stopping once. */
  lemma StopIdempotent(st: State, s: Code)
    ensures Stop(Stop(st, s).state, s) == Stop(st, s)
  {
  }

  /** A restart leaves exactly one stream for the session, and the one it
      replaced has been ended. */
  lemma RestartEndsPrevious(st: State, sock: SocketId, s: Code, l1: Text, l2: Text)
    ensures var a := Start(st, sock, s, l1).state;
      var b := Start(a, sock, s, l2).state;
      && b.ended == a.ended + [a.streams[s]]
      && s in b.streams && b.request.config.languageCode == StartLanguage(l2)
  {
  }

  /** The recognition stream's `data` callback for session `s`: the first
      alternative of the first result, if present, is broadcast with its
      finality; only a final one replaces the stored transcript. */
  function Recognized(st: State, s: Code, results: seq<SpeechResult>): (r: Step<State>)
    ensures r.state.streams == st.streams && r.state.request == st.request && r.state.ended == st.ended
    ensures r.state.nextId == st.nextId
    ensures (|results| == 0 || |results[0].alternatives| == 0) ==> r.state == st && r.out == []
    ensures |results| > 0 && |results[0].alternatives| > 0 ==>
      var text := results[0].alternatives[0];
      && r.out == [Broadcast(s, SubtitleUpdate(text, results[0].isFinal))]
      && (results[0].isFinal ==> s in r.state.transcripts && r.state.transcripts[s] == text)
      && (!results[0].isFinal ==> r.state.transcripts == st.transcripts)
    ensures forall c :: c != s ==> (c in r.state.transcripts <==> c in st.transcripts)
    ensures forall c :: c != s && c in st.transcripts ==> r.state.transcripts[c] == st.transcripts[c]
  {
    if |results| > 0 && |results[0].alternatives| > 0 then
      var text := results[0].alternatives[0];
      var transcripts := if results[0].isFinal then st.transcripts[s := text] else st.transcripts;
      Step(st.(transcripts := transcripts), [Broadcast(s, SubtitleUpdate(text, results[0].isFinal))])
    else Step(st, [])
  }

  /** A final result becomes what the next joiner is resynced with (when it
      is non-empty); an interim result leaves that resync as it was. */
  lemma ResultThenJoin(st: State, s: Code, text: string, isFinal: bool, sock: SocketId)
    ensures var st' := Recognized(st, s, [SpeechResult([text], isFinal)]).state;
      && (isFinal && text != "" ==> JoinResync(st', sock, s) == [Unicast(sock, SubtitleResync(text))])
      && (isFinal && text == "" ==> JoinResync(st', sock, s) == [])
      && (!isFinal ==> JoinResync(st', sock, s) == JoinResync(st, sock, s))
  {
  }

  /** The stream's `error` callback for session `s`: the whole room hears
      about it; the stream stays registered. */
  function RecognitionFailed(st: State, s: Code): (r: Step<State>)
    ensures r.state == st
    ensures |r.out| == 1 && r.out[0].Broadcast? && r.out[0].room == s
    ensures r.out[0].event == SubtitleError(RecognitionErrorMessage)
  {
    Step(st, [Broadcast(s, SubtitleError(RecognitionErrorMessage))])
  }

  /** The request a `requestTranslation` sends, if it passes validation: the
      source language is whatever the shared config holds now. */
  function TranslationQuery(st: State, text: Text, target: Text): (q: Option<Query>)
    ensures q.Some? <==> text.Truthy() && target.Truthy()
    ensures q.Some? ==> q.value.text == text.s && q.value.target == target.s
    ensures q.Some? ==> q.value.source == st.request.config.languageCode
  {
    if !text.Truthy() || !target.Truthy() then None
    else Some(Query(text.s, st.request.config.languageCode, target.s))
  }

  /** `requestTranslation` from `sock`: nothing for an invalid request;
      otherwise exactly one reply to the requester, never a broadcast. */
  function RequestTranslation(st: State, sock: SocketId, text: Text, target: Text, outcome: Outcome): (out: seq<Emission>)
    ensures UnicastTo(out, sock)
    ensures !(text.Truthy() && target.Truthy()) ==> out == []
    ensures text.Truthy() && target.Truthy() ==> |out| == 1
    ensures |out| == 1 && outcome.Translated? ==> out[0].event == TranslatedSubtitle(outcome.text)
    ensures |out| == 1 && outcome.ServiceError? ==> out[0].event == SubtitleError(TranslationErrorMessage)
  {
    match TranslationQuery(st, text, target)
    case None => []
    case Some(_) =>
      match outcome
      case Translated(t) => [Unicast(sock, TranslatedSubtitle(t))]
      case ServiceError => [Unicast(sock, SubtitleError(TranslationErrorMessage))]
  }

  /** Because the start writes into the shared config, a later translation
      request from any session uses the language of the most recent start
      as its source. */
  lemma StartLanguageLeaks(st: State, sock: SocketId, s: Code, lang: string, text: string, target: string)
    requires lang != "" && text != "" && target != ""
    ensures var st' := Start(st, sock, s, Str(lang)).state;
      TranslationQuery(st', Str(text), Str(target)) == Some(Query(text, lang, target))
  {
  }

  /** The config is one shared object: a start in session `b` rewrites the
      language of the stream already open for session `a`, which stays
      registered. */
  lemma StartRewritesOpenStreams(st: State, sock: SocketId, a: Code, b: Code, la: string, lb: string)
    requires a != b && la != "" && lb != ""
    ensures var s1 := Start(st, sock, a, Str(la)).state;
      var s2 := Start(s1, sock, b, Str(lb)).state;
      && s1.request.config.languageCode == la
      && a in s2.streams && s2.streams[a] == s1.streams[a]
      && s2.request.config.languageCode == lb
  {
  }

  /** `Object.keys` on the Set of socket ids that `adapter.rooms.get` returns
      (or on the `{}` fallback): neither has own enumerable keys. */
  function RoomKeys(room: set<SocketId>): seq<SocketId> {
    []
  }

  /** `Array.prototype.find` over socket ids. The source's test reads
      `recognitionStreams[s]._readableState.pipes[0].id`, a Node stream
      internal outside the model; it is replaced here by "this id is the
      socket that opened the stream". The test is never evaluated, because
      the list searched is always empty (`RoomKeys`). */
  function FindStarter(ids: seq<SocketId>, starter: SocketId): (r: Option<SocketId>)
    ensures r.Some? <==> starter in ids
    ensures r.Some? ==> r.value == starter
  {
    if starter in ids then Some(starter) else None
  }

  /** The disconnect handler's guard as written. */
  predicate TeardownGuard(st: State, sock: SocketId, s: Code, room: set<SocketId>) {
    s in st.streams && Some(sock) == FindStarter(RoomKeys(room), st.streams[s].starter)
  }

  /** The subtitle `disconnect` handler as written, for a registration on
      `s`: ends the stream only when the guard holds. */
  function DisconnectAsWritten(st: State, sock: SocketId, s: Code, room: set<SocketId>): (r: State)
    ensures r == st
  {
    if TeardownGuard(st, sock, s, room) then Stop(st, s).state else st
  }

  /** The guard can never hold, so a presenter's stream outlives the
      presenter: concretely, the socket that started the stream for
      "ABC123" disconnects and the stream is still open and registered. */
  lemma PresenterStreamOutlivesDisconnect()
    ensures var st := Start(Init, "p", "ABC123", Str("en-US")).state;
      && "ABC123" in DisconnectAsWritten(st, "p", "ABC123", {"p"}).streams
      && !TeardownGuard(st, "p", "ABC123", {"p"})
  {
  }

  /** The subtitle `disconnect` handler as intended: for a registration on
      `s`, the stream is ended and removed when the disconnecting socket is
      the one that started it. */
  function Disconnect(st: State, sock: SocketId, s: Code): (r: State)
    ensures s in st.streams && st.streams[s].starter == sock ==>
      s !in r.streams && r.ended == st.ended + [st.streams[s]]
    ensures !(s in st.streams && st.streams[s].starter == sock) ==> r == st
    ensures forall c :: c != s ==> (c in r.streams <==> c in st.streams)
    ensures forall c :: c != s && c in st.streams ==> r.streams[c] == st.streams[c]
    ensures r.transcripts == st.transcripts && r.request == st.request && r.nextId == st.nextId
    ensures Valid(st) ==> Valid(r)
  {
    if s in st.streams && st.streams[s].starter == sock then Stop(st, s).state else st
  }

  /** With the intended handler, the same scenario ends the stream. */
  lemma PresenterStreamEndsOnDisconnect()
    ensures var st := Start(Init, "p", "ABC123", Str("en-US")).state;
      "ABC123" !in Disconnect(st, "p", "ABC123").streams
  {
  }
}

=== FILE: timer.dfy ===
/** The countdown registry of utils/timer.js: `sessionTimers` keyed by
    session code, `startCountdown`, `stopCountdown`, and the body of the
    one-second interval as an explicit `Tick` step.

    Interval handles are explicit: `live` holds every interval that has not
    been cleared, mapped to the session its callback closes over. The
    callback reads `sessionTimers[sessionCode]` at each firing, not the entry
    that created it, which is why clearing the old interval on a restart
    matters. */
module Timer {
  import opened Events

  /** One `sessionTimers` entry. Its interval handle is always set (a Node
      timer object is truthy even after it has been cleared). */
  datatype Entry = Entry(timeLeft: int, interval: nat)

  datatype Registry = Registry(entries: map<Code, Entry>, live: map<nat, Code>, next: nat)

  const Empty := Registry(map[], map[], 0)

  /** Every live interval belongs to the current entry of its session, and
      every handle in use is below `next`. */
  ghost predicate Valid(t: Registry) {
    && (forall h :: h in t.live ==> t.live[h] in t.entries && t.entries[t.live[h]].interval == h)
    && (forall c :: c in t.entries ==> t.entries[c].interval < t.next)
    && (forall c, d :: c in t.entries && d in t.entries && c != d ==> t.entries[c].interval != t.entries[d].interval)
  }

  /** The session's interval has not been cleared. */
  predicate Ticking(t: Registry, s: Code) {
    s in t.entries && t.entries[s].interval in t.live
  }

  /** Session `c` looks the same in both registries. */
  predicate SameSession(t: Registry, u: Registry, c: Code) {
    && (c in t.entries <==> c in u.entries)
    && (c in t.entries ==> t.entries[c].timeLeft == u.entries[c].timeLeft)
    && (Ticking(t, c) <==> Ticking(u, c))
  }

  lemma EmptyValid()
    ensures Valid(Empty)
  {
  }

  /** At most one uncleared interval per session. */
  lemma AtMostOneInterval(t: Registry, h1: nat, h2: nat)
    requires Valid(t)
    requires h1 in t.live && h2 in t.live && t.live[h1] == t.live[h2]
    ensures h1 == h2
  {
  }

  /** `startCountdown(s, duration)`: clears the session's interval if there
      is one, installs a fresh entry with a new interval and returns the
      initial `timeLeft`. */
  function Start(t: Registry, s: Code, duration: int): (r: (Registry, int))
    ensures r.1 == duration
    ensures s in r.0.entries && r.0.entries[s].timeLeft == duration && Ticking(r.0, s)
    ensures Valid(t) ==> Valid(r.0)
    ensures Valid(t) && s in t.entries ==> t.entries[s].interval !in r.0.live
    ensures Valid(t) ==> forall h :: h in r.0.live && r.0.live[h] == s ==> h == r.0.entries[s].interval
    ensures Valid(t) ==> forall c :: c != s ==> SameSession(t, r.0, c)
  {
    var live := if s in t.entries then t.live - {t.entries[s].interval} else t.live;
    var u := Registry(t.entries[s := Entry(duration, t.next)], live[t.next := s], t.next + 1);
    assert Valid(t) ==> forall c :: c != s && c in t.entries ==> t.entries[c].interval != t.next;
    (u, duration)
  }

  /** One firing of interval `h`: decrement the session's `timeLeft`,
      broadcast it with its status, and clear the interval once the count is
      no longer positive. A cleared interval never fires. */
  function Tick(t: Registry, h: nat): (r: Step<Registry>)
    requires Valid(t)
    ensures Valid(r.state)
    ensures h !in t.live ==> r == Step(t, [])
    ensures h in t.live ==>
      var s := t.live[h];
      var left := t.entries[s].timeLeft - 1;
      && s in r.state.entries
      && r.state.entries[s].timeLeft == left
      && |r.out| == 1
      && r.out[0].Broadcast? && r.out[0].room == s
      && r.out[0].event.CountdownUpdate? && r.out[0].event.timeLeft == left
      && (r.out[0].event.status == Finished <==> left <= 0)
      && (Ticking(r.state, s) <==> left > 0)
      && forall c :: c != s ==> SameSession(t, r.state, c)
  {
    if h !in t.live then Step(t, [])
    else
      var s := t.live[h];
      var left := t.entries[s].timeLeft - 1;
      var entries := t.entries[s := Entry(left, h)];
      var status := if left <= 0 then Finished else Running;
      var live := if left <= 0 then t.live - {h} else t.live;
      Step(Registry(entries, live, t.next), [Broadcast(s, CountdownUpdate(left, status))])
  }

  /** The interval of session `s` fires once (nothing happens when the
      session has no uncleared interval). */
  function TickSession(t: Registry, s: Code): (r: Step<Registry>)
    requires Valid(t)
    ensures Valid(r.state)
    ensures !Ticking(t, s) ==> r == Step(t, [])
    ensures forall c :: c != s ==> SameSession(t, r.state, c)
  {
    if Ticking(t, s) then Tick(t, t.entries[s].interval) else Step(t, [])
  }

  /** `stopCountdown(s)`: clears and deletes the session's entry and reports
      whether there was one. */
  function Stop(t: Registry, s: Code): (r: (Registry, bool))
    ensures r.1 <==> s in t.entries
    ensures s !in r.0.entries
    ensures !r.1 ==> r.0 == t
    ensures Valid(t) ==> Valid(r.0) && !Ticking(r.0, s)
    ensures Valid(t) ==> forall h :: h in r.0.live ==> r.0.live[h] != s
    ensures Valid(t) ==> forall c :: c != s ==> SameSession(t, r.0, c)
  {
    if s in t.entries then
      (Registry(t.entries - {s}, t.live - {t.entries[s].interval}, t.next), true)
    else (t, false)
  }

  /** `n` successive firings of session `s`'s interval, with their emissions. */
  function Run(t: Registry, s: Code, n: nat): (r: Step<Registry>)
    requires Valid(t)
    ensures Valid(r.state)
    decreases n
  {
    if n == 0 then Step(t, [])
    else
      var a := TickSession(t, s);
      var b := Run(a.state, s, n - 1);
      Step(b.state, a.out + b.out)
  }

  /** Firings a countdown from `d` performs before clearing itself. */
  function Firings(d: int): nat {
    if d > 0 then d else 1
  }

  /** The updates a countdown from `d` broadcasts to room `s`: `d-1` down to
      `0`, only the last one finished; or the single finished update `d-1`
      when `d` is not positive. */
  function Expected(s: Code, d: int): (r: seq<Emission>)
    ensures |r| == Firings(d)
  {
    if d <= 0 then
      [Broadcast(s, CountdownUpdate(d - 1, Finished))]
    else
      seq(d, i requires 0 <= i < d =>
        Broadcast(s, CountdownUpdate(d - 1 - i, if i == d - 1 then Finished else Running)))
  }

  lemma ExpectedUnfold(s: Code, k: int)
    requires k > 1
    ensures Expected(s, k) == [Broadcast(s, CountdownUpdate(k - 1, Running))] + Expected(s, k - 1)
  {
  }

  /** Once a session's interval is cleared, further firings change nothing. */
  lemma {:induction false} RunIdle(t: Registry, s: Code, n: nat)
    requires Valid(t) && !Ticking(t, s)
    ensures Run(t, s, n) == Step(t, [])
  {
    if n > 0 {
      RunIdle(t, s, n - 1);
    }
  }

  /** One firing of a ticking session, spelled out. */
  lemma TickLive(t: Registry, s: Code)
    requires Valid(t) && Ticking(t, s)
    ensures var k := t.entries[s].timeLeft; var a := TickSession(t, s);
      && a.out == [Broadcast(s, CountdownUpdate(k - 1, if k - 1 <= 0 then Finished else Running))]
      && s in a.state.entries && a.state.entries[s].timeLeft == k - 1
      && (Ticking(a.state, s) <==> k - 1 > 0)
      && forall c :: c != s ==> SameSession(t, a.state, c)
  {
  }

  lemma SameSessionTrans(t: Registry, u: Registry, v: Registry, s: Code)
    requires forall c :: c != s ==> SameSession(t, u, c)
    requires forall c :: c != s ==> SameSession(u, v, c)
    ensures forall c :: c != s ==> SameSession(t, v, c)
  {
    forall c | c != s
      ensures SameSession(t, v, c)
    {
      assert SameSession(t, u, c) && SameSession(u, v, c);
    }
  }

  /** A ticking entry with `k` seconds left emits exactly `Expected(s, k)`
      over any number of firings at least `Firings(k)`, ends not ticking at
      `min(k, 1) - 1`, and other sessions are left alone. */
  lemma {:induction false} RunFrom(t: Registry, s: Code, k: int, n: nat)
    requires Valid(t) && Ticking(t, s) && t.entries[s].timeLeft == k
    requires n >= Firings(k)
    decreases n
    ensures var r := Run(t, s, n);
      && r.out == Expected(s, k)
      && s in r.state.entries && !Ticking(r.state, s)
      && r.state.entries[s].timeLeft == (if k > 0 then 0 else k - 1)
      && forall c :: c != s ==> SameSession(t, r.state, c)
  {
    TickLive(t, s);
    var a := TickSession(t, s);
    var b := Run(a.state, s, n - 1);
    assert Run(t, s, n) == Step(b.state, a.out + b.out);
    if k - 1 <= 0 {
      RunIdle(a.state, s, n - 1);
    } else {
      RunFrom(a.state, s, k - 1, n - 1);
      ExpectedUnfold(s, k);
      SameSessionTrans(t, a.state, b.state, s);
    }
  }

  /** A countdown started at `d` emits exactly `Expected(s, d)` and then
      stops firing; its entry stays in the registry. */
  lemma Countdown(t: Registry, s: Code, d: int, n: nat)
    requires Valid(t) && n >= Firings(d)
    ensures var r := Run(Start(t, s, d).0, s, n);
      && r.out == Expected(s, d)
      && s in r.state.entries && !Ticking(r.state, s)
  {
    RunFrom(Start(t, s, d).0, s, d, n);
  }

  /** A finished entry is still found by `stopCountdown`, which reports true
      and removes it. */
  lemma StopAfterFinish(t: Registry, s: Code, d: int, n: nat)
    requires Valid(t) && n >= Firings(d)
    ensures var u := Run(Start(t, s, d).0, s, n).state;
      Stop(u, s).1 && s !in Stop(u, s).0.entries
  {
    Countdown(t, s, d, n);
  }

  /** Starting twice leaves a single uncleared interval for the session,
      counting from the second duration: the first countdown cannot
      double-decrement. */
  lemma RestartSingleInterval(t: Registry, s: Code, d1: int, d2: int)
    requires Valid(t)
    ensures var u := Start(Start(t, s, d1).0, s, d2).0;
      && u.entries[s].timeLeft == d2
      && Start(t, s, d1).0.entries[s].interval !in u.live
      && forall h :: h in u.live && u.live[h] == s ==> h == u.entries[s].interval
  {
  }
}
